=== FILE: README.md ===
# SDFS coordinator metadata model

A Dafny model of the coordinator of SDFS, a small distributed file store. The coordinator
is the single process that owns three pieces of state:

- the node registry (`Nodes`, address to node record);
- a consistent-hashing ring snapshot built from the registered addresses (`Ring`);
- the file directory (`Files`, file name to `FileGroup` with version counter and replica set).

It also holds the replication factor `NumReplicas` and its own node record `Self`.

The model keeps this state as an immutable datatype (`Coordinator.Coordinator`). Every request
handler becomes a pure transition, taken as one atomic step (see "## Left out" on concurrency).
A transition returns the new state together with what it would have sent over the network:

- `Put` emits a sequence of `Notice`s (a `FileUpdate` addressed to one replica);
- a `Leave` or a detected failure emits a set of `Replication` instructions (source, destination,
  file group); `Join` emits nothing and runs no diff.

Modules:

- `Common` (`common.dfy`): the records of package `common` (`Node`, `FileGroup`, `Replication`,
  `FileUpdate`, the operation codes 1 to 4) and a `Result` type for transitions that abort.
- `Placement` (`placement.dfy`): the ring. A ring is its set of node addresses. Placement
  (`GetNodes` of the hashing library) is a function parameter `place(ring, key, n)`.
  `ValidPlacement` states the only thing the coordinator relies on: for `0 < n <= |ring|` the
  result is `n` distinct ring members, and its first element is the primary.
- `Coordinator` (`coordinator.dfy`): the state and its invariant `Valid`, plus `NewCoordinator`,
  the write path (`Write`, `Broadcast`, `Put`), `Delete`, `Ls`, `Store`, `MemList`,
  `GetVersions` and `Join`.
- `Reconcile` (`reconcile.dfy`): `Diff`, and the membership transitions that run it (`Leave`,
  `HandleFailure`, and one failure-detector tick of `Run`).

`Valid` is the state invariant every transition preserves. It says:

- the ring equals the set of registered addresses;
- every directory entry is stored under its own name;
- every entry has version at least 1;
- every entry has exactly `NumReplicas` replicas.

Behaviour of the code that the model keeps as it is:

- `getReplicasForFile` and `Put` panic when the ring has fewer than `NumReplicas` nodes
  (sdfs/coordinator/coordinator.go:93, 327). The model returns `Fail(InsufficientReplicas)`.
  In the code that panic ends the process, so nothing after it matters.
- Each copy call of `diff` waits up to `RequestTimeout` for the peer's reply and panics without
  one (sdfs/coordinator/coordinator.go:108-114, 124-130). The stored replica sets are replaced
  only after all calls have returned (sdfs/coordinator/coordinator.go:178, 277). The rewrite does
  not depend on the copy succeeding, because a dial error is only logged
  (sdfs/coordinator/coordinator.go:104-105, 120-121). The model rewrites the sets without
  modelling the calls; the timeout panic is listed under "## Left out".
- One failure-detector tick handles only `failed[0]`, even when several nodes failed to answer
  (sdfs/coordinator/coordinator.go:370-373). So does `FailureTick` (`TickHandlesOnlyFirst`).
- `Join` never runs `diff` (sdfs/coordinator/coordinator.go:231-236), so stored replica sets can
  go stale. A later `Leave` of a node that is in a stored set but not in the old ring's placement
  leaves that node in the set. The model therefore states no "replica sets are subsets of the
  live nodes" invariant. `DepartedNodeIsReplaced` is stated about the old ring's placement, not
  about the stored set.
- A copy instruction names the old primary as its source even when that primary is the node that
  just left (sdfs/coordinator/coordinator.go:144, 154; `DepartedPrimaryStaysSource`).

## Model

| member | source | states |
|---|---|---|
| `Placement.GetReplicasForFile` | sdfs/coordinator/coordinator.go:89-100 | succeeds exactly when the ring can supply the requested count; the primary is then the first node `place` returns for the file and the set is the set of what it returns, `n` ring members containing the primary; `Diff` obtains both placements through it |
| `Placement.PlacedSet` | sdfs/coordinator/coordinator.go:95-98 | the replica set built from the ring's answer has exactly `n` addresses, all ring members |
| `Placement.Primary` | sdfs/coordinator/coordinator.go:99 | the primary is one of the file's placed replicas |
| `Coordinator.NewCoordinator` | sdfs/coordinator/coordinator.go:35-50 | the new coordinator has an empty directory, the given registry, and a ring made of exactly the registered addresses, so it satisfies `Valid` |
| `Coordinator.Write` | sdfs/coordinator/coordinator.go:315-343 | a new name gets version 1, its own name and the ring's placement of `NumReplicas` addresses; it aborts exactly when the ring is too small. A known name gets version + 1 with name and replicas unchanged and never aborts. No other entry, and neither registry nor ring, changes; `Valid` is kept |
| `Coordinator.Broadcast` | sdfs/coordinator/coordinator.go:345-353 | one notice per replica address except the coordinator's own, no address twice, every notice carrying the given update |
| `Coordinator.Put` | sdfs/coordinator/coordinator.go:315-356 | state as `Write`; on success one `FileUpdate` per replica other than `Self`, carrying the post-increment version and `NewFile` for a first write or `UpdateFile` otherwise; nothing is sent when the write aborts |
| `Coordinator.Delete` | sdfs/coordinator/coordinator.go:256-267 | reports true iff the name was present; removes exactly that entry; an absent name leaves the state identical; registry and ring never change |
| `Coordinator.Ls` | sdfs/coordinator/coordinator.go:199-211 | the file's replica set, empty for an unknown name; under `Valid` it has `NumReplicas` addresses for a known file |
| `Coordinator.Store` | sdfs/coordinator/coordinator.go:213-224 | only names present in the directory are returned |
| `Coordinator.MemList` | sdfs/coordinator/coordinator.go:226-229 | returns the node registry itself; under `Valid` its keys are exactly the ring's addresses |
| `Coordinator.GetVersions` | sdfs/coordinator/coordinator.go:238-254 | for a known file, labels 1..Version in ascending order, each paired with the file's name, whatever count was asked for; nothing for an unknown file |
| `Coordinator.Join` | sdfs/coordinator/coordinator.go:231-236 | the node is registered under its address and that address is added to the ring; other registry entries and the directory are unchanged; `Valid` is kept |
| `Coordinator.PutTwice` | sdfs/coordinator/coordinator.go:318-343 | a first write gives version 1 as a new file, a second gives version 2 as an update with the same replica set, registry and ring untouched |
| `Coordinator.StoreLsDual` | sdfs/coordinator/coordinator.go:199-224 | a name is in `Store(address)` iff the address is in `Ls(name)` |
| `Coordinator.DeleteThenLs` | sdfs/coordinator/coordinator.go:256-267 | after deleting a name it has no replicas, no address stores it, and a second delete reports false |
| `Coordinator.StartupRejectsWrites` | sdfs/main.go:89 | a coordinator started with four replicas and an empty registry aborts a write exactly when fewer than four distinct addresses have joined: repeated joins of one node do not help, and once four distinct addresses have joined every write succeeds |
| `Coordinator.JoinAllRing` | sdfs/coordinator/coordinator.go:231-233 | a run of joins adds exactly the joined addresses to the ring, each address once however often it joined |
| `Reconcile.Diff` | sdfs/coordinator/coordinator.go:134-167 | aborts exactly when there are files and either ring is too small; keeps every file name with its name and version; each group is either kept or given the new placement; every instruction copies from an old-ring node to a different new-ring node; well-formed entries stay well formed |
| `Reconcile.RemoveMember` | sdfs/coordinator/coordinator.go:171-180 | the address leaves registry and ring together; the new directory and the copy instructions are exactly those of `Diff` against the smaller ring; the abort condition is that diff's; `Valid` is kept |
| `Reconcile.Leave` | sdfs/coordinator/coordinator.go:269-282 | the transition is `RemoveMember` of the leaving address, so the directory becomes the diff's output against the smaller ring; the address is neither registered nor on the ring afterwards |
| `Reconcile.HandleFailure` | sdfs/coordinator/coordinator.go:169-181 | the same transition as `Leave` of that node, hence the diff against the ring without it; the failed address is no longer registered and no file name is lost |
| `Reconcile.FailureTick` | sdfs/coordinator/coordinator.go:370-373 | no failure: nothing changes and nothing is sent; otherwise exactly `failed[0]` is handled, so at most one node leaves the registry per tick; `Valid` is kept |
| `Reconcile.DiffRewritesOnlyChangedFiles` | sdfs/coordinator/coordinator.go:146-163 | a group takes the new placement iff the new placement contains an address the old one lacked; otherwise the stored group is kept as it is |
| `Reconcile.DiffInstructionsExact` | sdfs/coordinator/coordinator.go:146-161 | an instruction for file f to address a exists iff a is in f's new placement but not its old one; every instruction names its file's old primary as source and carries the reconciled group |
| `Reconcile.DiffBalancesGainsAndLosses` | sdfs/coordinator/coordinator.go:141-148 | a file gains as many addresses under the new ring as it loses from the old one |
| `Reconcile.DiffSameRingQuiet` | sdfs/coordinator/coordinator.go:134-167 | a diff against the unchanged ring issues no instruction and leaves the directory as it is |
| `Reconcile.DepartedNodeIsReplaced` | sdfs/coordinator/coordinator.go:169-180 | when a node the old ring placed a file on leaves, the file's replica set becomes the new placement, which excludes that node, and at least one copy instruction is issued for the file |
| `Reconcile.DepartedPrimaryStaysSource` | sdfs/coordinator/coordinator.go:144-155 | when the departing node is a file's old primary, every instruction for that file names the departed node, no longer on the ring, as its source |
| `Reconcile.RemoveMemberIdempotent` | sdfs/coordinator/coordinator.go:269-282 | removing the same address a second time changes nothing and issues nothing |
| `Reconcile.TickHandlesOnlyFirst` | sdfs/coordinator/coordinator.go:370-373 | a tick depends only on the first failed node; the other reported nodes stay registered |
| `Reconcile.MemListTracksMembership` | sdfs/coordinator/coordinator.go:226-236 | after a join the member list holds the joined node's record under its address; after a removal the address is not listed and every other record is unchanged |
| `Reconcile.WrittenFileSurvivesFailure` | sdfs/coordinator/coordinator.go:169-180 | after a first write and the failure of one of its replicas, the replica set no longer lists that node; copies go exactly to the newly placed addresses, from the primary chosen at write time |

## Left out

- `ping` (failure probing with goroutines, dial and ack timeouts) is concurrency and network
  I/O. Its outcome enters the model as the input sequence `failed` of `FailureTick`.
- `sendReplication`, `receiveReplication` and `sendFileUpdate` are RPC calls. Their records are
  emitted instead of sent. Their dial errors (logged) and their timeout panics are not modelled.
- `Run` is left out apart from the failure branch. Its RPC server, ticker and quit channel are I/O.
  `pingPeriod` and `RequestTimeout` only drive timing and are not part of the state.
- The commented-out `receiveFile` byte transfer is dead code.
- The hashing library's internals (hash function, virtual nodes, minimal churn) are not visible.
  Placement is abstract, and churn properties are not stated.
- Placement requests for `n <= 0` replicas are treated as failed lookups. `getReplicasForFile`
  would index `replicas[0]` of an empty answer, and the library's own behaviour there is not visible.
- Version labels are `(version, name)` pairs rather than the formatted string `"%d,%s"`.
- Concurrency: the model treats each handler as one atomic transition. The code takes no lock.
  net/rpc serves each call on its own goroutine, and the ticker goroutine calls `handleFailure`
  (sdfs/coordinator/coordinator.go:363-373), so `Put`, `Join` and `Delete` can write `Files` and
  `Nodes` while a membership change is running. `Leave` and `handleFailure` replace the ring only
  after the blocking replication calls, and then overwrite `Files` with the diff's output. A `Put`
  in that window can place its file on the old ring, and its entry can be lost. Concurrent map
  writes can also abort the Go runtime. None of these interleavings is modelled.
- `Ls` and `Store` answers are sets. The code builds slices by iterating over Go maps, whose
  order is unspecified.
- `Put` notifications come in the order the loop picks replicas. Nothing is promised about that order.
- Version counters are unbounded integers. The code's 64-bit `int` overflow is not modelled.
- Log messages are not modelled.
- The client shell, the replica's logging handlers and the start-up flag parsing and host table
  are not modelled. The one start-up fact used is the replication factor 4 with an empty registry.
- `Coordinator.Store`: its own contract only bounds the answer by the directory. The exact
  characterisation is stated by `Coordinator.StoreLsDual`.

=== FILE: common.dfy ===
/** Records exchanged between the coordinator and the replicas (package common). */
module Common {

  /** Kinds of file mutation carried in a FileUpdate. */
  datatype OpType = DeleteFile | UpdateFile | NewFile | ReadFile {

    /** The integer code of each kind, as the wire records carry it (package common's
        DeleteFileOp = 1, UpdateFileOp = 2, NewFileOp = 3, ReadFileOp = 4). Documentation of the
        mapping only: the model compares kinds, not codes. */
    function Code(): int {
      match this
      case DeleteFile => 1
      case UpdateFile => 2
      case NewFile => 3
      case ReadFile => 4
    }
  }

  /** A cluster member; the address is its identity. */
  datatype Node = Node(address: string, port: int, iterationNumber: int)

  /** Per-file metadata: the current version counter and the addresses holding a replica. */
  datatype FileGroup = FileGroup(name: string, version: int, replicas: set<string>)

  /** An instruction to copy a file from `source` to `destination`. */
  datatype Replication = Replication(source: string, destination: string, fileGroup: FileGroup)

  /** A notification to a replica that a write happened. */
  datatype FileUpdate = FileUpdate(name: string, version: int, opType: OpType)

  /** Why a transition aborted: the ring could not supply the requested number of replicas. */
  datatype Fault = InsufficientReplicas

  /** The outcome of a transition that may abort. */
  datatype Result<+T> = Ok(value: T) | Fail(fault: Fault) {

    predicate IsFailure() {
      Fail?
    }

    function PropagateFailure<U>(): Result<U>
      requires Fail?
    {
      Fail(fault)
    }

    function Extract(): T
      requires Ok?
    {
      value
    }
  }
}

=== FILE: coordinator.dfy ===
/** The coordinator's metadata state and the operations that read or change it
    without touching the ring (sdfs/coordinator/coordinator.go). */
module Coordinator {
  import opened Common
  import opened Placement

  /** Node registry, file directory and ring snapshot, owned by one coordinator. */
  datatype Coordinator = Coordinator(
    self: Node,
    numReplicas: int,
    nodes: map<string, Node>,
    files: map<string, FileGroup>,
    ring: Ring)

  /** A FileUpdate sent to the replica at `address`. */
  datatype Notice = Notice(address: string, update: FileUpdate)

  /** One entry of the GetVersions answer: the version number and the file it belongs to. */
  datatype VersionLabel = VersionLabel(version: int, name: string)

  /** A directory entry as the coordinator keeps it: stored under its own name, written at least
      once, with one replica per requested copy. */
  predicate WellFormedGroup(key: string, fg: FileGroup, n: int) {
    fg.name == key && fg.version >= 1 && |fg.replicas| == n
  }

  /** The ring is built from exactly the registered nodes, and every directory entry is well formed. */
  predicate Valid(c: Coordinator) {
    && c.ring == c.nodes.Keys
    && forall f :: f in c.files ==> WellFormedGroup(f, c.files[f], c.numReplicas)
  }

  function NewCoordinator(self: Node, numReplicas: int, nodes: map<string, Node>): (c: Coordinator)
    ensures Valid(c)
    ensures c.files == map[] && c.nodes == nodes && c.ring == nodes.Keys
    ensures c.self == self && c.numReplicas == numReplicas
  {
    Coordinator(self, numReplicas, nodes, map[], nodes.Keys)
  }

  /** The operation kind a write of `name` announces. */
  function OpFor(c: Coordinator, name: string): OpType {
    if name in c.files then UpdateFile else NewFile
  }

  /** The directory half of Put: create the entry on first write, then bump its version. */
  function Write(c: Coordinator, place: Placement, name: string): (r: Result<Coordinator>)
    requires ValidPlacement(place)
    ensures name in c.files ==> r.Ok?
    ensures name !in c.files ==> (r.Fail? <==> !Placeable(c.ring, c.numReplicas))
    ensures r.Ok? ==> r.value == c.(files := r.value.files)
    ensures r.Ok? ==> r.value.files.Keys == c.files.Keys + {name}
    ensures r.Ok? ==> forall f :: f in c.files && f != name ==> r.value.files[f] == c.files[f]
    ensures r.Ok? && name in c.files ==>
              var old_fg := c.files[name];
              r.value.files[name] == FileGroup(old_fg.name, old_fg.version + 1, old_fg.replicas)
    ensures r.Ok? && name !in c.files ==>
              var fg := r.value.files[name];
              && fg.name == name && fg.version == 1
              && fg.replicas == PlacedSet(place, c.ring, c.numReplicas, name)
              && |fg.replicas| == c.numReplicas && fg.replicas <= c.ring
    ensures Valid(c) && r.Ok? ==> Valid(r.value)
  {
    if name in c.files then
      var fg := c.files[name];
      Ok(c.(files := c.files[name := fg.(version := fg.version + 1)]))
    else if !Placeable(c.ring, c.numReplicas) then
      Fail(InsufficientReplicas)
    else
      var fg := FileGroup(name, 0, PlacedSet(place, c.ring, c.numReplicas, name));
      Ok(c.(files := c.files[name := fg.(version := fg.version + 1)]))
  }

  function Targets(sent: seq<Notice>): seq<string> {
    seq(|sent|, i requires 0 <= i < |sent| => sent[i].address)
  }

  /** Sends `update` to every address of `replicas` except the coordinator's own. */
  method Broadcast(replicas: set<string>, self: string, update: FileUpdate) returns (sent: seq<Notice>)
    ensures Distinct(Targets(sent))
    ensures Elems(Targets(sent)) == replicas - {self}
    ensures |sent| == |replicas - {self}|
    ensures forall i :: 0 <= i < |sent| ==> sent[i].update == update
  {
    sent := [];
    var rest := replicas;
    while rest != {}
      invariant rest <= replicas
      invariant Distinct(Targets(sent))
      invariant Elems(Targets(sent)) == (replicas - rest) - {self}
      invariant forall i :: 0 <= i < |sent| ==> sent[i].update == update
      decreases rest
    {
      var a :| a in rest;
      if a != self {
        assert a !in Elems(Targets(sent));
        AppendNotice(sent, Notice(a, update));
        sent := sent + [Notice(a, update)];
      }
      VisitStep(replicas, rest, self, a);
      rest := rest - {a};
    }
    DistinctElemsCard(Targets(sent));
  }

  lemma AppendNotice(sent: seq<Notice>, n: Notice)
    requires Distinct(Targets(sent)) && n.address !in Elems(Targets(sent))
    ensures Targets(sent + [n]) == Targets(sent) + [n.address]
    ensures Distinct(Targets(sent + [n]))
    ensures Elems(Targets(sent + [n])) == Elems(Targets(sent)) + {n.address}
  {
  }

  /** Visiting `a` adds it to the addresses done so far, unless it is the coordinator's own. */
  lemma VisitStep(replicas: set<string>, rest: set<string>, self: string, a: string)
    requires a in rest
    ensures (replicas - (rest - {a})) - {self}
         == ((replicas - rest) - {self}) + (if a in replicas && a != self then {a} else {})
  {
  }

  /** The write path: record the write, then notify every replica but the coordinator. */
  method Put(c: Coordinator, place: Placement, name: string) returns (r: Result<Coordinator>, sent: seq<Notice>)
    requires ValidPlacement(place)
    ensures r == Write(c, place, name)
    ensures r.Fail? ==> sent == []
    ensures r.Ok? ==>
              var fg := r.value.files[name];
              && Distinct(Targets(sent))
              && Elems(Targets(sent)) == fg.replicas - {c.self.address}
              && |sent| == |fg.replicas - {c.self.address}|
              && forall i :: 0 <= i < |sent| ==>
                   sent[i].update == FileUpdate(name, fg.version, if name in c.files then UpdateFile else NewFile)
  {
    r := Write(c, place, name);
    if r.Fail? {
      sent := [];
      return;
    }
    var fg := r.value.files[name];
    sent := Broadcast(fg.replicas, c.self.address, FileUpdate(name, fg.version, OpFor(c, name)));
  }

  /** Removes `name` from the directory and reports whether it was there. */
  function Delete(c: Coordinator, name: string): (r: (Coordinator, bool))
    ensures r.1 <==> name in c.files
    ensures !r.1 ==> r.0 == c
    ensures r.0.files.Keys == c.files.Keys - {name}
    ensures forall f :: f in r.0.files ==> r.0.files[f] == c.files[f]
    ensures r.0.nodes == c.nodes && r.0.ring == c.ring && r.0.self == c.self && r.0.numReplicas == c.numReplicas
    ensures Valid(c) ==> Valid(r.0)
  {
    if name !in c.files then (c, false)
    else (c.(files := c.files - {name}), true)
  }

  /** The replica set of `name`; empty for an unknown name. */
  function Ls(c: Coordinator, name: string): (r: set<string>)
    ensures name in c.files ==> r == c.files[name].replicas
    ensures name !in c.files ==> r == {}
    ensures Valid(c) ==> |r| == (if name in c.files then c.numReplicas else 0)
  {
    if name in c.files then c.files[name].replicas else {}
  }

  /** The files that list `address` among their replicas. */
  function Store(c: Coordinator, address: string): (r: set<string>)
    ensures r <= c.files.Keys
  {
    set f | f in c.files && address in c.files[f].replicas
  }

  /** The node registry. */
  function MemList(c: Coordinator): (r: map<string, Node>)
    ensures r == c.nodes
    ensures Valid(c) ==> r.Keys == c.ring
  {
    c.nodes
  }

  /** Labels for every version of `name`, oldest first; the requested count is not consulted. */
  method GetVersions(c: Coordinator, name: string, numVersions: int) returns (labels: seq<VersionLabel>)
    ensures name !in c.files ==> labels == []
    ensures name in c.files ==>
              && |labels| == (if c.files[name].version < 0 then 0 else c.files[name].version)
              && forall i :: 0 <= i < |labels| ==> labels[i] == VersionLabel(i + 1, c.files[name].name)
    ensures Valid(c) && name in c.files ==>
              |labels| == c.files[name].version && labels[|labels| - 1].version == c.files[name].version
  {
    labels := [];
    if name !in c.files {
      return;
    }
    var fg := c.files[name];
    var version := 1;
    while version <= fg.version
      invariant 1 <= version
      invariant version <= fg.version + 1 || version == 1
      invariant |labels| == version - 1
      invariant forall i :: 0 <= i < |labels| ==> labels[i] == VersionLabel(i + 1, fg.name)
    {
      labels := labels + [VersionLabel(version, fg.name)];
      version := version + 1;
    }
  }

  /** Registers `node` and adds its address to the ring; the directory is not reconciled. */
  function Join(c: Coordinator, node: Node): (r: Coordinator)
    ensures r.nodes.Keys == c.nodes.Keys + {node.address} && r.nodes[node.address] == node
    ensures forall a :: a in c.nodes && a != node.address ==> r.nodes[a] == c.nodes[a]
    ensures r.ring == c.ring + {node.address}
    ensures r.files == c.files && r.self == c.self && r.numReplicas == c.numReplicas
    ensures Valid(c) ==> Valid(r)
  {
    c.(nodes := c.nodes[node.address := node], ring := c.ring + {node.address})
  }

  // Properties relating several operations.

  /** A second write of the same name bumps the version to 2, announces an update and keeps the
      replica set chosen by the first write. */
  lemma PutTwice(c: Coordinator, place: Placement, name: string)
    requires ValidPlacement(place)
    requires name !in c.files && Placeable(c.ring, c.numReplicas)
    ensures Write(c, place, name).Ok?
    ensures var c1 := Write(c, place, name).value;
            && c1.files[name].version == 1 && OpFor(c, name) == NewFile
            && Write(c1, place, name).Ok?
            && var c2 := Write(c1, place, name).value;
            && c2.files[name].version == 2 && OpFor(c1, name) == UpdateFile
            && c2.files[name].replicas == c1.files[name].replicas
            && c2.nodes == c.nodes && c2.ring == c.ring
  {
  }

  /** Ls and Store answer the same question from two sides. */
  lemma StoreLsDual(c: Coordinator, name: string, address: string)
    ensures name in Store(c, address) <==> address in Ls(c, name)
  {
  }

  /** After a delete the name has no replicas and no address stores it. */
  lemma DeleteThenLs(c: Coordinator, name: string, address: string)
    ensures Ls(Delete(c, name).0, name) == {}
    ensures name !in Store(Delete(c, name).0, address)
    ensures !Delete(Delete(c, name).0, name).1
  {
  }

  /** The coordinator started with four replicas and no nodes aborts a write exactly while fewer
      than four distinct addresses have joined; repeated joins of one address do not count. */
  lemma StartupRejectsWrites(self: Node, place: Placement, joined: seq<Node>, name: string)
    requires ValidPlacement(place)
    ensures Write(JoinAll(NewCoordinator(self, 4, map[]), joined), place, name).Fail?
            <==> |JoinedAddresses(joined)| < 4
  {
    var c0 := NewCoordinator(self, 4, map[]);
    JoinAllBounds(c0, joined);
    JoinAllRing(c0, joined);
  }

  /** The addresses named by a sequence of join requests. */
  function JoinedAddresses(joined: seq<Node>): set<string> {
    set i | 0 <= i < |joined| :: joined[i].address
  }

  function JoinAll(c: Coordinator, joined: seq<Node>): Coordinator
    decreases |joined|
  {
    if joined == [] then c else JoinAll(Join(c, joined[0]), joined[1..])
  }

  lemma {:induction false} JoinAllBounds(c: Coordinator, joined: seq<Node>)
    ensures JoinAll(c, joined).files == c.files && JoinAll(c, joined).numReplicas == c.numReplicas
    ensures |JoinAll(c, joined).ring| <= |c.ring| + |joined|
    decreases |joined|
  {
    if joined != [] {
      JoinAllBounds(Join(c, joined[0]), joined[1..]);
    }
  }

  /** Joining a sequence of nodes adds exactly their addresses to the ring. */
  lemma {:induction false} JoinAllRing(c: Coordinator, joined: seq<Node>)
    ensures JoinAll(c, joined).ring == c.ring + JoinedAddresses(joined)
    decreases |joined|
  {
    if joined != [] {
      JoinAllRing(Join(c, joined[0]), joined[1..]);
      assert JoinedAddresses(joined) == {joined[0].address} + JoinedAddresses(joined[1..]) by {
        forall a | a in JoinedAddresses(joined) ensures a in {joined[0].address} + JoinedAddresses(joined[1..]) {
          var i :| 0 <= i < |joined| && joined[i].address == a;
          if i > 0 { assert joined[1..][i - 1].address == a; }
        }
        forall a | a in JoinedAddresses(joined[1..]) ensures a in JoinedAddresses(joined) {
          var i :| 0 <= i < |joined[1..]| && joined[1..][i].address == a;
          assert joined[i + 1].address == a;
        }
      }
    }
  }
}

=== FILE: placement.dfy ===
/** The consistent-hashing ring, kept abstract: a ring is its set of node addresses and
    placement is a deterministic function of (ring, key, count). */
module Placement {
  import opened Common

  type Ring = set<string>

  /** `place(ring, key, n)` is the ordered list of nodes the ring returns for `key`. */
  type Placement = (Ring, string, int) -> seq<string>

  predicate Distinct<T(==)>(s: seq<T>) {
    forall i, j :: 0 <= i < j < |s| ==> s[i] != s[j]
  }

  function Elems<T>(s: seq<T>): set<T> {
    set x | x in s
  }

  lemma {:induction false} DistinctElemsCard<T>(s: seq<T>)
    requires Distinct(s)
    ensures |Elems(s)| == |s|
  {
    if |s| > 0 {
      assert Distinct(s[1..]);
      DistinctElemsCard(s[1..]);
      assert Elems(s) == {s[0]} + Elems(s[1..]);
      assert s[0] !in Elems(s[1..]);
    }
  }

  /** The ring can answer a request for `n` replicas. */
  predicate Placeable(ring: Ring, n: int) {
    0 < n <= |ring|
  }

  /** What the coordinator relies on from the ring: `n` distinct members of the ring. */
  predicate PlacementOk(nodes: seq<string>, ring: Ring, n: int) {
    |nodes| == n && Distinct(nodes) && Elems(nodes) <= ring
  }

  ghost predicate ValidPlacement(place: Placement) {
    forall ring, key, n :: Placeable(ring, n) ==> PlacementOk(place(ring, key, n), ring, n)
  }

  /** The replica set of `key` on `ring`. */
  function PlacedSet(place: Placement, ring: Ring, n: int, key: string): (s: set<string>)
    requires ValidPlacement(place) && Placeable(ring, n)
    ensures |s| == n && s <= ring
  {
    var nodes := place(ring, key, n);
    DistinctElemsCard(nodes);
    Elems(nodes)
  }

  /** The first node the ring returns for `key`: the source of truth for copies. */
  function Primary(place: Placement, ring: Ring, n: int, key: string): (p: string)
    requires ValidPlacement(place) && Placeable(ring, n)
    ensures p in PlacedSet(place, ring, n, key)
  {
    place(ring, key, n)[0]
  }

  /** The primary and the replica set of `file`, or the abort the coordinator raises when the
      ring is too small. */
  function GetReplicasForFile(place: Placement, ring: Ring, n: int, file: string): (r: Result<(string, set<string>)>)
    requires ValidPlacement(place)
    ensures r.Ok? <==> Placeable(ring, n)
    ensures r.Ok? ==> r.value.0 in r.value.1 && r.value.1 <= ring && |r.value.1| == n
    ensures r.Ok? ==> r.value.0 == Primary(place, ring, n, file) && r.value.1 == PlacedSet(place, ring, n, file)
  {
    if Placeable(ring, n) then Ok((Primary(place, ring, n, file), PlacedSet(place, ring, n, file)))
    else Fail(InsufficientReplicas)
  }
}

=== FILE: reconcile.dfy ===
/** Topology changes: the diff between placements on the old and the new ring, and the
    membership transitions that run it (Leave, handleFailure and the failure-detector tick). */
module Reconcile {
  import opened Common
  import opened Placement
  import opened Coordinator

  /** The directory after a diff together with the copy instructions it issued. */
  datatype Reconciliation = Reconciliation(files: map<string, FileGroup>, replications: set<Replication>)

  /** A coordinator state after a membership change together with the copy instructions it issued. */
  datatype Transition = Transition(state: Coordinator, replications: set<Replication>)

  /** Addresses the new ring places `key` on that the old ring did not. */
  function Added(place: Placement, oldRing: Ring, newRing: Ring, n: int, key: string): (a: set<string>)
    requires ValidPlacement(place) && Placeable(oldRing, n) && Placeable(newRing, n)
    ensures a <= newRing
    ensures a !! PlacedSet(place, oldRing, n, key)
  {
    PlacedSet(place, newRing, n, key) - PlacedSet(place, oldRing, n, key)
  }

  /** A group takes its new placement only when that placement brings in an address the old
      placement lacked; otherwise the stored group is kept as it is. */
  function ReconcileGroup(fg: FileGroup, oldSet: set<string>, newSet: set<string>): FileGroup {
    if newSet - oldSet != {} then fg.(replicas := newSet) else fg
  }

  /** One instruction per (file, newly placed address), copying from the file's old primary. */
  function Instructions(c: Coordinator, place: Placement, newRing: Ring, files': map<string, FileGroup>): (r: set<Replication>)
    requires ValidPlacement(place)
    requires Placeable(c.ring, c.numReplicas) && Placeable(newRing, c.numReplicas)
    requires files'.Keys == c.files.Keys
    ensures (forall f :: f in c.files ==> Added(place, c.ring, newRing, c.numReplicas, f) == {}) ==> r == {}
  {
    set f, d | f in c.files && d in Added(place, c.ring, newRing, c.numReplicas, f) ::
      Replication(GetReplicasForFile(place, c.ring, c.numReplicas, f).value.0, d, files'[f])
  }

  /** Compares every file's placement on the current ring with its placement on `newRing`. */
  function Diff(c: Coordinator, place: Placement, newRing: Ring): (r: Result<Reconciliation>)
    requires ValidPlacement(place)
    ensures r.Fail? <==> c.files != map[] && !(Placeable(newRing, c.numReplicas) && Placeable(c.ring, c.numReplicas))
    ensures r.Ok? ==> r.value.files.Keys == c.files.Keys
    ensures r.Ok? ==> forall f :: f in c.files ==>
              && r.value.files[f].name == c.files[f].name
              && r.value.files[f].version == c.files[f].version
    ensures r.Ok? ==> forall f :: f in c.files ==>
              || r.value.files[f] == c.files[f]
              || r.value.files[f].replicas == PlacedSet(place, newRing, c.numReplicas, f)
    ensures r.Ok? ==> forall rep :: rep in r.value.replications ==>
              rep.source in c.ring && rep.destination in newRing && rep.source != rep.destination
    ensures Valid(c) && r.Ok? ==> forall f :: f in r.value.files ==> WellFormedGroup(f, r.value.files[f], c.numReplicas)
  {
    var n := c.numReplicas;
    if c.files == map[] then
      Ok(Reconciliation(map[], {}))
    else if !Placeable(newRing, n) || !Placeable(c.ring, n) then
      Fail(InsufficientReplicas)
    else
      var files' := map f | f in c.files ::
        ReconcileGroup(c.files[f],
                       GetReplicasForFile(place, c.ring, n, f).value.1,
                       GetReplicasForFile(place, newRing, n, f).value.1);
      Ok(Reconciliation(files', Instructions(c, place, newRing, files')))
  }

  /** Drops `address` from the registry and the ring and reconciles the directory against the
      smaller ring. */
  function RemoveMember(c: Coordinator, place: Placement, address: string): (r: Result<Transition>)
    requires ValidPlacement(place)
    ensures r.Fail? <==>
              c.files != map[] && !(Placeable(c.ring - {address}, c.numReplicas) && Placeable(c.ring, c.numReplicas))
    ensures r.Ok? ==>
              && r.value.state.nodes == c.nodes - {address}
              && r.value.state.ring == c.ring - {address}
              && r.value.state.files.Keys == c.files.Keys
              && r.value.state.self == c.self && r.value.state.numReplicas == c.numReplicas
    ensures r.Ok? ==>
              var d := Diff(c, place, c.ring - {address});
              && d.Ok?
              && r.value.state.files == d.value.files
              && r.value.replications == d.value.replications
    ensures Valid(c) && r.Ok? ==> Valid(r.value.state)
  {
    var newRing := c.ring - {address};
    var d :- Diff(c, place, newRing);
    Ok(Transition(c.(nodes := c.nodes - {address}, files := d.files, ring := newRing), d.replications))
  }

  /** A node announces it is leaving. */
  function Leave(c: Coordinator, place: Placement, node: Node): (r: Result<Transition>)
    requires ValidPlacement(place)
    ensures r == RemoveMember(c, place, node.address)
    ensures r.Ok? ==> node.address !in r.value.state.nodes && node.address !in r.value.state.ring
  {
    RemoveMember(c, place, node.address)
  }

  /** The failure detector reported `failed`. */
  function HandleFailure(c: Coordinator, place: Placement, failed: Node): (r: Result<Transition>)
    requires ValidPlacement(place)
    ensures r == Leave(c, place, failed)
    ensures r.Ok? ==> failed.address !in r.value.state.nodes && r.value.state.files.Keys == c.files.Keys
  {
    RemoveMember(c, place, failed.address)
  }

  /** One failure-detector period: of the nodes that did not answer, only the first is handled. */
  function FailureTick(c: Coordinator, place: Placement, failed: seq<Node>): (r: Result<Transition>)
    requires ValidPlacement(place)
    ensures failed == [] ==> r == Ok(Transition(c, {}))
    ensures failed != [] ==> r == HandleFailure(c, place, failed[0])
    ensures r.Ok? ==> r.value.state.nodes.Keys == c.nodes.Keys - (if failed == [] then {} else {failed[0].address})
    ensures r.Ok? ==> |c.nodes.Keys - r.value.state.nodes.Keys| <= 1
    ensures Valid(c) && r.Ok? ==> Valid(r.value.state)
  {
    if failed == [] then Ok(Transition(c, {}))
    else HandleFailure(c, place, failed[0])
  }

  // Properties of the diff.

  /** The rewrite rule, stated per file: a new address in the new placement replaces the stored
      replica set by the new placement; otherwise the stored group is untouched. */
  lemma DiffRewritesOnlyChangedFiles(c: Coordinator, place: Placement, newRing: Ring, f: string)
    requires ValidPlacement(place)
    requires Diff(c, place, newRing).Ok? && f in c.files
    ensures Placeable(c.ring, c.numReplicas) && Placeable(newRing, c.numReplicas)
    ensures var fg' := Diff(c, place, newRing).value.files[f];
            var added := Added(place, c.ring, newRing, c.numReplicas, f);
            && (added != {} ==> fg' == c.files[f].(replicas := PlacedSet(place, newRing, c.numReplicas, f)))
            && (added == {} ==> fg' == c.files[f])
  {
  }

  /** The instructions are exactly one per file and newly placed address, each naming the file's
      old primary as source and carrying the reconciled group. */
  lemma DiffInstructionsExact(c: Coordinator, place: Placement, newRing: Ring)
    requires ValidPlacement(place) && Valid(c)
    requires Diff(c, place, newRing).Ok? && c.files != map[]
    ensures Placeable(c.ring, c.numReplicas) && Placeable(newRing, c.numReplicas)
    ensures var d := Diff(c, place, newRing).value;
            forall f, a :: f in c.files ==>
              (Replication(Primary(place, c.ring, c.numReplicas, f), a, d.files[f]) in d.replications
               <==> a in Added(place, c.ring, newRing, c.numReplicas, f))
    ensures var d := Diff(c, place, newRing).value;
            forall rep :: rep in d.replications ==>
              var f := rep.fileGroup.name;
              && f in c.files
              && rep.fileGroup == d.files[f]
              && rep.source == Primary(place, c.ring, c.numReplicas, f)
              && rep.destination in Added(place, c.ring, newRing, c.numReplicas, f)
  {
  }

  /** Each address a file gains stands for one address it loses: the number of addresses the new
      placement adds equals the number of old replicas the new ring no longer uses. */
  lemma DiffBalancesGainsAndLosses(c: Coordinator, place: Placement, newRing: Ring, f: string)
    requires ValidPlacement(place)
    requires Placeable(c.ring, c.numReplicas) && Placeable(newRing, c.numReplicas)
    ensures |Added(place, c.ring, newRing, c.numReplicas, f)|
         == |PlacedSet(place, c.ring, c.numReplicas, f) - PlacedSet(place, newRing, c.numReplicas, f)|
  {
    var n := c.numReplicas;
    SwapBalance(PlacedSet(place, newRing, n, f), PlacedSet(place, c.ring, n, f));
  }

  lemma SwapBalance<T>(a: set<T>, b: set<T>)
    requires |a| == |b|
    ensures |a - b| == |b - a|
  {
  }

  /** Reconciling against an unchanged ring issues nothing and keeps the directory. */
  lemma DiffSameRingQuiet(c: Coordinator, place: Placement)
    requires ValidPlacement(place)
    requires c.files == map[] || Placeable(c.ring, c.numReplicas)
    ensures Diff(c, place, c.ring) == Ok(Reconciliation(c.files, {}))
  {
    if c.files != map[] {
      var d := Diff(c, place, c.ring).value;
      forall f | f in c.files
        ensures d.files[f] == c.files[f] && Added(place, c.ring, c.ring, c.numReplicas, f) == {}
      {
        assert Added(place, c.ring, c.ring, c.numReplicas, f) == {};
      }
      assert d.files == c.files;
    }
  }

  /** A replica set cannot move entirely inside a smaller set of the same size. */
  lemma SubsetCard<T>(a: set<T>, b: set<T>)
    requires a <= b
    ensures |a| <= |b|
  {
    assert b == a + (b - a);
  }

  /** When a node leaves, every file the old ring placed on it is re-placed: its stored replica set
      becomes the new placement, which excludes the departed node, and at least one copy is issued. */
  lemma DepartedNodeIsReplaced(c: Coordinator, place: Placement, address: string, f: string)
    requires ValidPlacement(place)
    requires RemoveMember(c, place, address).Ok? && f in c.files
    requires Placeable(c.ring, c.numReplicas) && address in PlacedSet(place, c.ring, c.numReplicas, f)
    ensures var t := RemoveMember(c, place, address).value;
            && address !in t.state.files[f].replicas
            && t.state.files[f].replicas == PlacedSet(place, c.ring - {address}, c.numReplicas, f)
            && exists rep :: rep in t.replications && rep.fileGroup == t.state.files[f]
  {
    var n := c.numReplicas;
    var newRing := c.ring - {address};
    assert Placeable(newRing, n);
    var oldSet := PlacedSet(place, c.ring, n, f);
    var newSet := PlacedSet(place, newRing, n, f);
    if newSet - oldSet == {} {
      SubsetCard(newSet, oldSet - {address});
      assert false;
    }
    var a :| a in newSet - oldSet;
    var d := Diff(c, place, newRing).value;
    assert Replication(Primary(place, c.ring, n, f), a, d.files[f]) in d.replications;
  }

  /** As written, the copy source is the file's old primary even when that primary is the node
      that just left: the instruction names a node that is no longer in the ring. */
  lemma DepartedPrimaryStaysSource(c: Coordinator, place: Placement, address: string, f: string)
    requires ValidPlacement(place) && Valid(c)
    requires f in c.files && Placeable(c.ring - {address}, c.numReplicas)
    requires Placeable(c.ring, c.numReplicas) && address == Primary(place, c.ring, c.numReplicas, f)
    ensures RemoveMember(c, place, address).Ok?
    ensures var t := RemoveMember(c, place, address).value;
            forall rep :: rep in t.replications && rep.fileGroup.name == f ==>
              rep.source == address && rep.source !in t.state.ring
  {
  }

  /** Leaving twice is the same as leaving once: the second removal finds nothing to do. */
  lemma RemoveMemberIdempotent(c: Coordinator, place: Placement, address: string)
    requires ValidPlacement(place)
    requires RemoveMember(c, place, address).Ok?
    ensures var s := RemoveMember(c, place, address).value.state;
            RemoveMember(s, place, address) == Ok(Transition(s, {}))
  {
    var s := RemoveMember(c, place, address).value.state;
    assert s.ring - {address} == s.ring;
    assert s.nodes - {address} == s.nodes;
    DiffSameRingQuiet(s, place);
  }

  /** Failures after the first in one tick are not acted on; they stay registered. */
  lemma TickHandlesOnlyFirst(c: Coordinator, place: Placement, failed: seq<Node>)
    requires ValidPlacement(place)
    requires failed != []
    ensures FailureTick(c, place, failed) == FailureTick(c, place, failed[..1])
    ensures FailureTick(c, place, failed).Ok? ==>
              forall i :: 0 <= i < |failed| && failed[i].address in c.nodes && failed[i].address != failed[0].address ==>
                failed[i].address in FailureTick(c, place, failed).value.state.nodes
  {
  }

  /** A file written once and then losing one of its replicas: the stored set drops that replica,
      and copies go exactly to the addresses the new placement adds, from the file's first primary. */
  lemma WrittenFileSurvivesFailure(c: Coordinator, place: Placement, name: string, failed: Node)
    requires ValidPlacement(place) && Valid(c)
    requires name !in c.files && Placeable(c.ring, c.numReplicas)
    requires var c1 := Write(c, place, name).value;
             failed.address in Ls(c1, name) && HandleFailure(c1, place, failed).Ok?
    ensures var c1 := Write(c, place, name).value;
            var t := HandleFailure(c1, place, failed).value;
            && failed.address !in Ls(t.state, name)
            && (forall rep :: rep in t.replications && rep.fileGroup.name == name ==>
                  && rep.source == Primary(place, c.ring, c.numReplicas, name)
                  && rep.destination in Ls(t.state, name) - Ls(c1, name))
            && (forall a :: a in Ls(t.state, name) - Ls(c1, name) ==>
                  Replication(Primary(place, c.ring, c.numReplicas, name), a, t.state.files[name]) in t.replications)
  {
    var c1 := Write(c, place, name).value;
    var newRing := c1.ring - {failed.address};
    DepartedNodeIsReplaced(c1, place, failed.address, name);
    DiffInstructionsExact(c1, place, newRing);
  }

  /** The member list follows membership: a joined node is listed with its record, a removed
      address is not listed. */
  lemma MemListTracksMembership(c: Coordinator, place: Placement, node: Node, address: string)
    requires ValidPlacement(place)
    ensures MemList(Join(c, node))[node.address] == node
    ensures RemoveMember(c, place, address).Ok? ==>
              address !in MemList(RemoveMember(c, place, address).value.state)
              && forall a :: a in c.nodes && a != address ==>
                   MemList(RemoveMember(c, place, address).value.state)[a] == c.nodes[a]
  {
  }
}
